=== FILE: README.md ===
# House-price web application: verified model of its core

This repository is a small Flask application. Users register and log in, store
property records, and ask a pre-trained regression model for a price estimate.
This project models two parts of `app.py` in Dafny and proves properties of them:

- **The feature-vector encoder of `/prediction`** (module `Encoder`). The six
  inputs become a one-row frame with four numeric columns (`size`,
  `total_sqft`, `bath`, `balcony`) and one indicator column for each categorical
  field (`area_type_<v>`, `location_<v>`). That row is reindexed against the
  ordered schema `model_columns` saved with the model. A schema column the row
  lacks gets 0, and a row column the schema lacks is dropped. Training dropped
  the first category of each field (`drop_first=True`, `train_model.py` line
  12). So the base category, like any value never seen in training, has no
  schema column and encodes as all-zero indicators.
- **The authentication, session and submission state machine** (modules
  `Passwords`, `Store`, `Auth`, `Submission`, `App`). The two tables are
  values. `users` is a map from username to `(id, password hash)` plus the next
  SERIAL id, and `properties` is a sequence of rows in insertion order plus
  the next property id. A
  session is the three keys the handlers write: `logged_in`, `user_id` and
  `username`. The register, login, logout and form handlers are pure
  functions from (tables, session) to a reply. The reply holds the next state,
  an outcome (`Done` or an error), and a `delayed` marker, which stands for the
  one-second pause after a failed login. The admin page is a function returning
  either the listing or the access error. In the request-level step function
  `App.Step`, the `/home`, `/form` and `/admin` page requests run only their
  access check.

Password hashing is foreign code. It is modelled as a key-derivation function
`kdf(salt, password)`, passed in as a parameter. The random salt is a
parameter of `Register`. The one fact the application relies on is that a hash
made from a password checks against that password. This is an `ensures` of
`Passwords.Hash`, not an axiom. The fitted model is a parameter
`model: seq<real> -> real` of `Encoder.Predict`.

Facts about `app.py` the model follows:

- `form` does not check that price or area are positive. It only calls `float(...)` (app.py:177-178), so `SubmitForm` accepts any real price and area.
- `price` and `area` are `REAL` columns (app.py:46-47), which the database stores in single precision. The model stores the exact real; see "## Left out".
- Both inserts can be refused by a constraint. The `username` column is `UNIQUE` (app.py:36), and `user_id` must name an existing account (app.py:48). A constraint refusal changes no table, but it still uses up one value of the id sequence.
- Both ids are `SERIAL` columns (app.py:35, 42), that is, 32-bit integers. Once a sequence has handed out 2147483647, every later insert into that table is refused and the sequence stays where it was.
- `Store.InsertUser` and `Store.InsertProperty` return whether the row was committed. `Auth.Register` reports a refused insert as a store error (app.py:158-159), and so does `Submission.SubmitForm` (app.py:191-192). `register` checks the name before inserting (app.py:142-149), so in the model its insert is refused only when the user ids have run out. `form` is refused when the session's `user_id` has no account, or when the property ids have run out.
- The admin page is an inner join of `properties` with `users` (app.py:213-217). A property whose owner had no account would be dropped. `Submission.Join` models that, and `App.AdminSeesEveryProperty` shows it cannot happen in a consistent store.

## Model

| member | source | states |
|---|---|---|
| Encoder.Reindex | app.py:122 | The result has exactly one entry per schema column, in schema order. Each entry is the row's value for that column, or the fill value 0 when the row lacks it. Row columns outside the schema never appear. |
| Encoder.AreaTypeColumn | app.py:121 | The indicator column for an area type carries the `area_type_` prefix, and stripping that prefix gives back the value, so distinct values get distinct columns. |
| Encoder.LocationColumn | app.py:121 | The indicator column for a location carries the `location_` prefix, and stripping that prefix gives back the value, so distinct values get distinct columns. |
| Encoder.OneHotRow | app.py:119-121 | The expanded row has exactly the four numeric columns and the two indicator columns `area_type_<v>` and `location_<v>`. The numeric columns hold the inputs and the indicators hold 1. |
| Encoder.Encode | app.py:114-122 | The vector is as long as the schema. `size`, `total_sqft`, `bath` and `balcony` carry the submitted values unchanged. An `area_type_`/`location_` column is 1 exactly when it names the submitted value, else 0. Every column outside the row is 0. |
| Encoder.UnseenLocationsEncodeAlike | app.py:121-122 | Two locations that both lack a schema column give identical vectors. An unseen value falls back to the dropped base category, and the schema does not grow. |
| Encoder.UnseenAreaTypesEncodeAlike | app.py:121-122 | The same for two area types that both lack a schema column. |
| Encoder.UnseenLocationsPredictAlike | app.py:121-124 | Two locations without schema columns get the same estimate from any fitted model. |
| Encoder.UnseenLocationIsAllZero | app.py:121-122 | A location without a schema column leaves every `location_` column at 0. |
| Encoder.UnseenAreaTypeIsAllZero | app.py:121-122 | An area type without a schema column leaves every `area_type_` column at 0. |
| Encoder.OneHotLocation | app.py:121-122 | Any two `location_` entries that are 1 name the same column, and it is the submitted location's. |
| Passwords.Hash | app.py:151 | A hash made under a salt records that salt, and it checks against the password it was made from. |
| Passwords.CheckRejectsOtherDigests | app.py:94 | A guess whose digest under the stored salt differs does not check against the stored hash. |
| Store.ById | app.py:214-216 | Under the primary key, mapping id to username is a function. It is defined on exactly the stored ids and inverts the id column. |
| Store.InsertUser | app.py:151-155 | The row gets the next SERIAL id. While ids remain, the sequence advances by one whether or not the row is kept. Once they have run out, nothing changes. The insert commits iff the username is not taken and ids remain; otherwise the users table is unchanged. A committed insert adds exactly that key and keeps every other account unchanged. The properties are untouched, and a consistent store stays consistent. |
| Store.InsertProperty | app.py:184-188 | The row gets the next property id. While ids remain, that sequence advances whether or not the row is kept. Once they have run out, nothing changes. The insert commits iff the owner id belongs to an account and ids remain; otherwise the property table is unchanged. A committed insert appends exactly that row after the unchanged existing rows. The users table is untouched, and a consistent store stays consistent. |
| Auth.Register | app.py:130-162 | An empty username, or a password shorter than 8 characters (empty included), is a ValidationError. A taken username is a ConflictError. Otherwise, if the user ids have run out, the insert is refused with a StoreError. On any error nothing changes. On success the store gains exactly that username, bound to the next id and the password's hash, and no other account changes. The id sequence advances by one, and the property table and its sequence, and the session, are untouched. The store stays consistent. |
| Auth.Login | app.py:83-102 | Login succeeds iff the username exists and the password checks against its stored hash. On success the session becomes (logged in, that account's id, that username). On failure the result is an AuthError with the delay marker, and the session is exactly as before. The tables never change. |
| Auth.Logout | app.py:225-229 | Every session key is cleared and the tables are untouched. |
| Auth.RequireLogin | app.py:68-72 | `/home` and `/form` let a request through iff the session has a `user_id`. Otherwise the result is an AuthError. |
| Auth.RequireAdmin | app.py:205-209 | `/admin` lets a request through iff the session has a `user_id` and its username is exactly `admin`. Otherwise access is denied. |
| Auth.LogoutLocksEveryPage | app.py:224-229 | After logout the `/home`, `/form` and `/admin` checks all refuse. |
| Auth.AdminIsLoggedIn | app.py:207 | Passing the admin check implies passing the login check. |
| Auth.AdminIsRegistered | app.py:207 | In a consistent session, passing the admin check means the session's id is that of the registered account `admin`. |
| Auth.AdminCheckTrustsTheSession | app.py:205-209 | The admin check reads only the session: a session holding a `user_id` and the username `admin` passes it even when no `admin` account exists. |
| Auth.RegisterThenLogin | app.py:151-157 | After a successful registration, logging in with the same password succeeds without delay. The session carries the id the registration gave out. |
| Auth.RegisterTwice | app.py:142-149 | Registering the same username a second time is a ConflictError. It changes nothing, so the store holds one more account than before the first attempt, not two. |
| Auth.WrongPasswordNeverLogsIn | app.py:94-97 | After registration, a guess with a different digest fails with AuthError and the delay marker, and the session stays as it was. |
| Submission.SubmitForm | app.py:167-192 | With no `user_id` in the session, the result is an AuthError and nothing changes. With a `user_id` that no account has, or once the property ids have run out, the row is refused: StoreError, and the property table is unchanged. Whenever a `user_id` is present and property ids remain, the property id sequence advances by one. Once the property ids have run out, nothing changes at all. Otherwise exactly one row (the next property id, city, pincode, survey, price, area, the session's user id) is appended, and earlier rows stay unchanged. The users table and session are untouched, and a consistent store stays consistent. |
| Submission.Join | app.py:213-218 | The inner join never yields more rows than there are properties, and every owner name comes from the users table. When every owner has an account, row i is property i, with its id and its owner's username. |
| Submission.AdminPage | app.py:205-222 | A non-admin session gets AccessDenied. Any admin listing names only stored users. Over a consistent store it has one row per property, in order, with the property's id, its fields, and the username whose id owns it. |
| App.Step | app.py:68-229 | The page checks never change state. Only a logged-in submission changes the properties, and only a registration changes the users. Only a failed login is delayed. |
| App.StepPreservesInvariant | app.py:33-50 | Every handler keeps the tables consistent: ids unique and below the next id, every property owned by an existing id. It also keeps the session either empty or bound to an existing account. |
| App.OtherSessionsStayValid | app.py:68-229 | A request from any client keeps every other client's consistent session consistent, because no handler removes an account or changes an account's id. So following one client's session is enough. |
| App.RunPreservesInvariant | app.py:33-50 | Any sequence of requests keeps that invariant. |
| App.RunOnlyAppendsProperties | app.py:184-187 | Over any sequence of requests, the property table only grows at its end. |
| App.ConsistentSubmissionCommits | app.py:179-192 | From a consistent state, a submission with a `user_id` in the session is never refused by the foreign key, because the session's id belongs to an account. It is committed unless the property ids have run out. |
| App.AdminSeesEveryProperty | app.py:213-218 | From a consistent state, the admin's listing exists and has one row per stored property. |
| App.AliceScenario | app.py:130-190 | Registering `alice`/`password123`, logging in and submitting the Pune property leaves exactly that one row in the store. The row is owned by alice's id, and the session holds that id. |

## Left out

- Database connections, SQL text and the `CREATE TABLE` statements (app.py:27-56) are I/O. A refused insert is modelled only for the two constraints (`UNIQUE` on `username`, the foreign key on `user_id`) and for an exhausted id sequence. Other database failures, such as a lost connection or a full disk, are not modelled, though they also end in the error branches at app.py:158-159 and 191-192.
- Auth.Register: the `UNIQUE` index on `username` (app.py:36) refuses a name too large for an index entry. That is roughly 2.7 KB of text that does not compress. Such an insert fails at app.py:154, the error is caught at app.py:158, and nothing is stored. The model has no size limit and registers the name.
- Auth.Register: a username containing the character U+0000 makes the database driver raise `ValueError` at app.py:142. Nothing catches it, so the request ends in an HTTP 500 and nothing changes. The model treats such strings like any other.
- Auth.Login: a username containing U+0000 raises the same uncaught `ValueError` at app.py:89, so the request fails with no delay and no session change. The model instead answers with the delayed AuthError.
- Submission.SubmitForm: a city, pincode or survey containing U+0000 raises the same uncaught `ValueError` at app.py:184. Nothing is stored, and the property id sequence is not advanced. The model stores the row.
- Store.InsertUser: ids are naturals, and the only limit checked is the `SERIAL` maximum of 2147483647. The database's other reasons to refuse a row are not modelled: an oversized index entry, a U+0000 character, a lost connection.
- Store.InsertProperty: same cap and same omissions as `Store.InsertUser`.
- The cascade delete (app.py:48) is database behaviour, and no handler deletes anything.
- Flask routing, templates, redirects and flash messages are user-interface plumbing. This includes the flash clearing on `GET /login` (app.py:81) and the `?logout` flash (app.py:77-78). The session model holds only `logged_in`, `user_id` and `username`.
- Only the POST branches of `/login`, `/register` and `/form` are modelled. The GET branches only render a page.
- `time.sleep(1)` is real time. It appears only as the `delayed` marker on a failed login.
- `generate_password_hash` and `check_password_hash` are foreign cryptography. They are modelled as a hash over an abstract key-derivation function, with the salt passed in.
- `model.predict` and `round(..., 2)` (app.py:124-126) are a foreign ML library and floating point. `Encoder.Predict` applies an abstract model and does not round. Inputs are exact reals, not 64-bit floats.
- `float(...)` parsing of form strings is not modelled: the handlers take parsed reals. A missing form field, or a value `float` cannot parse, raises an exception in the source. Neither case is modelled.
- Submission.SubmitForm: price and area are stored as exact reals. The database's `REAL` columns hold single-precision floats, so 1234567.89 is stored and listed as 1234567.875. Values above about 3.4e38 are refused. `float(...)` also accepts NaN and infinities, which no real represents. None of this is modelled.
- Submission.AdminPage: the listing returns the price and area as stored by `SubmitForm`, that is, as exact reals, not single-precision values.
- Submission.AdminPage: the SQL query has no `ORDER BY`, so the database may return rows in any order. The model lists them in insertion order.
- Auth.SessionValid: Flask keeps the session in a cookie held by the client, signed with the key hardcoded at app.py:16. Anyone who knows that key can forge a cookie with any `user_id` and `username`. A copy of a cookie taken before `/logout` also keeps working, because `session.clear()` only empties the cookie sent back. `SessionValid`, and so `App.Invariant`, assumes no forged or replayed cookie. `Auth.AdminIsRegistered` and `App.ConsistentSubmissionCommits` rest on that assumption. `Auth.AdminCheckTrustsTheSession` shows the admin check itself does not enforce it.
- Auth.AdminIsRegistered: holds only under the no-forged-cookie assumption above. A forged `admin` session passes `/admin` without an `admin` account.
- App.Step: each Flask session belongs to one client. The model follows one client's session against shared tables. Interleaved requests from several clients, including the race between the username check and the insert in `register`, are not modelled.
- `train_model.py` is offline training. Its only trace here is the convention that a category without a schema column encodes as all-zero indicators.
- The pandas indicator dtype (`bool` in recent versions) is modelled as the number 1.

=== FILE: app.dfy ===
/**
 * The application as a state machine over one client's requests.
 *
 * Every request is handled against the shared tables and the requesting
 * client's session; sessions of other clients are never read or written by a
 * handler, so one session suffices to state what the handlers preserve.
 */
module App {
  import opened Outcomes
  import opened Passwords
  import opened Store
  import opened Auth
  import opened Submission

  datatype Request =
    | RegisterRequest(username: string, password: string, salt: string)
    | LoginRequest(username: string, password: string)
    | LogoutRequest
    | SubmitRequest(city: string, pincode: string, survey: string, price: real, area: real)
    | HomeRequest
    | FormPageRequest
    | AdminRequest

  /** The tables are consistent and the session belongs to an existing account. */
  predicate Invariant(st: State) {
    Valid(st.db) && SessionValid(st.db, st.session)
  }

  /** Handles one request; the pages that only read the state leave it alone. */
  function Step(kdf: Kdf, st: State, req: Request): (r: Reply)
    ensures req.HomeRequest? || req.FormPageRequest? || req.AdminRequest? ==> r.state == st
    ensures r.state.db.properties != st.db.properties ==> req.SubmitRequest? && st.session.userId.Some?
    ensures r.state.db.users != st.db.users ==> req.RegisterRequest?
    ensures r.delayed ==> req.LoginRequest? && r.status == Failed(AuthError)
  {
    match req
    case RegisterRequest(u, p, salt) => Register(kdf, st, u, p, salt)
    case LoginRequest(u, p) => Login(kdf, st, u, p)
    case LogoutRequest => Logout(st)
    case SubmitRequest(city, pincode, survey, price, area) =>
      SubmitForm(st, city, pincode, survey, price, area)
    case HomeRequest => Reply(st, RequireLogin(st.session), false)
    case FormPageRequest => Reply(st, RequireLogin(st.session), false)
    case AdminRequest => Reply(st, RequireAdmin(st.session), false)
  }

  /** Every handler keeps the invariant. */
  lemma StepPreservesInvariant(kdf: Kdf, st: State, req: Request)
    requires Invariant(st)
    ensures Invariant(Step(kdf, st, req).state)
  {
    match req
    case RegisterRequest(u, p, salt) =>
      var r := Register(kdf, st, u, p, salt);
      if r.status == Done && st.session != Anonymous {
        assert st.session.username.value in st.db.users;
      }
    case _ =>
  }

  /**
   * A request from any client keeps every other client's consistent session
   * consistent: no handler removes an account or changes an account's id.
   */
  lemma OtherSessionsStayValid(kdf: Kdf, st: State, req: Request, mine: Session)
    requires SessionValid(st.db, mine)
    ensures SessionValid(Step(kdf, st, req).state.db, mine)
  {
  }

  /** The state after handling `reqs` in order. */
  function Run(kdf: Kdf, st: State, reqs: seq<Request>): State
    decreases |reqs|
  {
    if reqs == [] then st else Run(kdf, Step(kdf, st, reqs[0]).state, reqs[1..])
  }

  /** Any sequence of requests from the initial state keeps the invariant. */
  lemma {:induction false} RunPreservesInvariant(kdf: Kdf, st: State, reqs: seq<Request>)
    requires Invariant(st)
    ensures Invariant(Run(kdf, st, reqs))
    decreases |reqs|
  {
    if reqs != [] {
      StepPreservesInvariant(kdf, st, reqs[0]);
      RunPreservesInvariant(kdf, Step(kdf, st, reqs[0]).state, reqs[1..]);
    }
  }

  /** Properties are only ever appended: a run keeps every earlier row where it was. */
  lemma {:induction false} RunOnlyAppendsProperties(kdf: Kdf, st: State, reqs: seq<Request>)
    ensures var props := Run(kdf, st, reqs).db.properties;
            |st.db.properties| <= |props| && props[..|st.db.properties|] == st.db.properties
    decreases |reqs|
  {
    if reqs != [] {
      var next := Step(kdf, st, reqs[0]).state;
      RunOnlyAppendsProperties(kdf, next, reqs[1..]);
      var final := Run(kdf, next, reqs[1..]).db.properties;
      assert |st.db.properties| <= |next.db.properties|;
      assert next.db.properties[..|st.db.properties|] == st.db.properties;
      assert final[..|next.db.properties|][..|st.db.properties|] == final[..|st.db.properties|];
    }
  }

  /**
   * From a consistent state a logged-in submission is never refused by the
   * foreign key, since the session's id is an account's id: it is stored
   * unless the property ids have run out.
   */
  lemma ConsistentSubmissionCommits(st: State, city: string, pincode: string, survey: string, price: real, area: real)
    requires Invariant(st)
    requires st.session.userId.Some?
    ensures SubmitForm(st, city, pincode, survey, price, area).status
            == (if st.db.nextPropertyId <= MaxSerialId then Done else Failed(StoreError))
  {
    var u := st.session.username.value;
    assert st.db.users[u].id == st.session.userId.value;
  }

  /** From a consistent state the admin sees one listing row per stored property. */
  lemma AdminSeesEveryProperty(st: State)
    requires Invariant(st)
    requires RequireAdmin(st.session) == Done
    ensures AdminPage(st).Success?
    ensures |AdminPage(st).value| == |st.db.properties|
  {
  }

  /**
   * Register `alice`, log her in and submit one property: the store then holds
   * exactly that row, owned by her account's id.
   */
  lemma AliceScenario(kdf: Kdf, salt: string)
    ensures var reqs := [
              RegisterRequest("alice", "password123", salt),
              LoginRequest("alice", "password123"),
              SubmitRequest("Pune", "411001", "SRV1", 50.0, 1200.0)];
            var final := Run(kdf, Initial, reqs);
            && "alice" in final.db.users
            && final.session.userId == Some(final.db.users["alice"].id)
            && final.db.properties
               == [Property(FirstId, "Pune", "411001", "SRV1", 50.0, 1200.0, final.db.users["alice"].id)]
  {
    var s1 := Step(kdf, Initial, RegisterRequest("alice", "password123", salt)).state;
    assert "alice" in s1.db.users;
    var s2 := Step(kdf, s1, LoginRequest("alice", "password123")).state;
    assert s2.session.userId == Some(s1.db.users["alice"].id);
    var s3 := Step(kdf, s2, SubmitRequest("Pune", "411001", "SRV1", 50.0, 1200.0)).state;
    assert s3.db.properties == [Property(FirstId, "Pune", "411001", "SRV1", 50.0, 1200.0, s1.db.users["alice"].id)];
    var reqs := [
      RegisterRequest("alice", "password123", salt),
      LoginRequest("alice", "password123"),
      SubmitRequest("Pune", "411001", "SRV1", 50.0, 1200.0)];
    assert Run(kdf, s3, []) == s3;
    assert Run(kdf, s2, reqs[2..]) == s3;
    assert Run(kdf, s1, reqs[1..]) == s3;
  }
}

=== FILE: auth.dfy ===
/**
 * Registration, login, logout and the session checks that guard the pages.
 *
 * Each handler is a pure function from the application state (both tables
 * and the requesting client's session) to a reply carrying the next state,
 * the outcome, and whether the handler paused before answering.
 */
module Auth {
  import opened Outcomes
  import opened Passwords
  import opened Store

  /** The shortest password registration accepts. */
  const MinPasswordLength: nat := 8

  /** The one username the admin page lets in. */
  const AdminName: string := "admin"

  /** The session keys the handlers write: `logged_in`, `user_id`, `username`. */
  datatype Session = Session(loggedIn: bool, userId: Option<nat>, username: Option<string>)

  /** A session with none of the keys set: a fresh client, or one that logged out. */
  const Anonymous: Session := Session(false, None, None)

  datatype Error =
    | ValidationError   // missing or too short credentials
    | ConflictError     // the username is taken
    | AuthError         // wrong credentials, or no logged-in session
    | AccessDenied      // a logged-in user who is not the admin
    | StoreError        // an INSERT the database refused

  datatype Status = Done | Failed(error: Error)

  datatype State = State(db: Db, session: Session)

  /** `delayed` marks the one-second pause a failed login makes before answering. */
  datatype Reply = Reply(state: State, status: Status, delayed: bool)

  /** Everything outside the database that the application starts with. */
  const Initial: State := State(Store.Empty, Anonymous)

  /**
   * A session is consistent with the tables when it is empty or was written
   * by a successful login of an account that is still there.
   */
  predicate SessionValid(db: Db, s: Session) {
    || s == Anonymous
    || (&& s.loggedIn
        && s.userId.Some?
        && s.username.Some?
        && s.username.value in db.users
        && db.users[s.username.value].id == s.userId.value)
  }

  /** The `POST /register` handler. */
  function Register(kdf: Kdf, st: State, username: string, password: string, salt: string): (r: Reply)
    ensures !r.delayed
    ensures r.state.session == st.session
    ensures r.state.db.properties == st.db.properties
    ensures r.status == Failed(ValidationError) <==> username == [] || |password| < MinPasswordLength
    ensures r.status == Failed(ConflictError) <==>
              username != [] && |password| >= MinPasswordLength && username in st.db.users
    ensures r.status == Failed(StoreError) <==>
              username != [] && |password| >= MinPasswordLength && username !in st.db.users
              && st.db.nextId > MaxSerialId
    ensures r.status.Failed? ==> r.status.error in {ValidationError, ConflictError, StoreError} && r.state == st
    ensures r.status == Done ==>
              && username !in st.db.users
              && r.state.db.nextId == st.db.nextId + 1
              && r.state.db.nextPropertyId == st.db.nextPropertyId
              && r.state.db.users.Keys == st.db.users.Keys + {username}
              && r.state.db.users[username] == Account(st.db.nextId, Hash(kdf, salt, password))
              && (forall u :: u in st.db.users ==> r.state.db.users[u] == st.db.users[u])
    ensures Valid(st.db) ==> Valid(r.state.db)
  {
    if username == [] || password == [] || |password| < MinPasswordLength then
      Reply(st, Failed(ValidationError), false)
    else if username in st.db.users then
      Reply(st, Failed(ConflictError), false)
    else
      var w := InsertUser(st.db, username, Hash(kdf, salt, password));
      Reply(st.(db := w.db), if w.committed then Done else Failed(StoreError), false)
  }

  /** The `POST /login` handler. */
  function Login(kdf: Kdf, st: State, username: string, password: string): (r: Reply)
    ensures r.state.db == st.db
    ensures r.status == Done <==> username in st.db.users && Check(kdf, st.db.users[username].hash, password)
    ensures r.delayed <==> r.status.Failed?
    ensures r.status.Failed? ==> r.status.error == AuthError && r.state.session == st.session
    ensures r.status == Done ==>
              r.state.session == Session(true, Some(st.db.users[username].id), Some(username))
    ensures SessionValid(st.db, st.session) ==> SessionValid(r.state.db, r.state.session)
  {
    if username !in st.db.users || !Check(kdf, st.db.users[username].hash, password) then
      Reply(st, Failed(AuthError), true)
    else
      var account := st.db.users[username];
      Reply(st.(session := Session(true, Some(account.id), Some(username))), Done, false)
  }

  /** The `/logout` handler: every key of the session goes. */
  function Logout(st: State): (r: Reply)
    ensures r.state.db == st.db && r.status == Done && !r.delayed
    ensures r.state.session.userId.None? && r.state.session.username.None? && !r.state.session.loggedIn
  {
    Reply(st.(session := Anonymous), Done, false)
  }

  /** The check `/home` and `/form` make before doing anything. */
  function RequireLogin(s: Session): (r: Status)
    ensures r == Done <==> s.userId.Some?
    ensures r.Failed? ==> r.error == AuthError
  {
    if s.userId.None? then Failed(AuthError) else Done
  }

  /** The check `/admin` makes: a logged-in session whose username is the admin's. */
  function RequireAdmin(s: Session): (r: Status)
    ensures r == Done <==> s.userId.Some? && s.username == Some(AdminName)
    ensures r.Failed? ==> r.error == AccessDenied
  {
    if s.userId.None? || s.username != Some(AdminName) then Failed(AccessDenied) else Done
  }

  /** After logout every guarded page turns the client away. */
  lemma LogoutLocksEveryPage(st: State)
    ensures RequireLogin(Logout(st).state.session) == Failed(AuthError)
    ensures RequireAdmin(Logout(st).state.session) == Failed(AccessDenied)
  {
  }

  /** Whoever passes the admin check also passes the login check. */
  lemma AdminIsLoggedIn(s: Session)
    requires RequireAdmin(s) == Done
    ensures RequireLogin(s) == Done
  {
  }

  /** In a consistent session, passing the admin check means being the registered user `admin`. */
  lemma AdminIsRegistered(db: Db, s: Session)
    requires SessionValid(db, s)
    requires RequireAdmin(s) == Done
    ensures AdminName in db.users && s.userId == Some(db.users[AdminName].id)
  {
  }

  /**
   * The admin check reads only the session: a session naming `admin` passes it
   * even when the users table holds no such account.
   */
  lemma AdminCheckTrustsTheSession(id: nat)
    ensures RequireAdmin(Session(false, Some(id), Some(AdminName))) == Done
    ensures AdminName !in Store.Empty.users
  {
  }

  /** A password registered for a fresh name logs that name in with the id it was given. */
  lemma RegisterThenLogin(kdf: Kdf, st: State, username: string, password: string, salt: string)
    requires Register(kdf, st, username, password, salt).status == Done
    ensures var after := Register(kdf, st, username, password, salt).state;
            var r := Login(kdf, after, username, password);
            && r.status == Done
            && !r.delayed
            && r.state.session.userId == Some(st.db.nextId)
            && RequireLogin(r.state.session) == Done
  {
  }

  /** Registering a taken name again fails, leaving the account count as it was. */
  lemma RegisterTwice(kdf: Kdf, st: State, username: string, password: string, salt: string, salt': string)
    requires Register(kdf, st, username, password, salt).status == Done
    ensures var once := Register(kdf, st, username, password, salt).state;
            var twice := Register(kdf, once, username, password, salt');
            && twice.status == Failed(ConflictError)
            && twice.state == once
            && |once.db.users| == |st.db.users| + 1
  {
    var once := Register(kdf, st, username, password, salt).state;
    assert once.db.users.Keys == st.db.users.Keys + {username};
  }

  /** A password with a different digest under the stored salt never opens a session. */
  lemma WrongPasswordNeverLogsIn(kdf: Kdf, st: State, username: string, password: string, guess: string, salt: string)
    requires Register(kdf, st, username, password, salt).status == Done
    requires kdf(salt, guess) != kdf(salt, password)
    ensures var after := Register(kdf, st, username, password, salt).state;
            var r := Login(kdf, after, username, guess);
            && r.status == Failed(AuthError)
            && r.delayed
            && r.state.session == st.session
  {
  }
}

=== FILE: encoder.dfy ===
/**
 * The feature-vector encoder of the `/prediction` route.
 *
 * The six form inputs become a one-row frame: four numeric columns and one
 * indicator column per categorical field (`area_type_<v>`, `location_<v>`).
 * That row is then reindexed against the ordered schema stored next to the
 * trained model: a schema column the row lacks is filled with 0, a row column
 * the schema lacks is dropped. The schema was produced with the first category
 * of each field dropped, so the base category, like any value never seen in
 * training, gets no indicator column at all.
 */
module Encoder {

  const AreaTypePrefix: string := "area_type_"
  const LocationPrefix: string := "location_"

  /** The value a schema column gets when the one-hot row does not hold it. */
  const FillValue: real := 0.0

  /** The value of a present indicator column (pandas' `True`, read as a number). */
  const Hot: real := 1.0

  /** The names of the four numeric inputs, which pass through unchanged. */
  const NumericColumns: set<string> := {"size", "total_sqft", "bath", "balcony"}

  /** The six prediction inputs, already parsed from the form. */
  datatype Query = Query(
    areaType: string,
    location: string,
    size: real,
    totalSqft: real,
    bath: real,
    balcony: real)

  /** A fitted regression model, seen only as a function of the feature vector. */
  type Model = seq<real> -> real

  predicate HasPrefix(prefix: string, s: string) {
    |prefix| <= |s| && s[..|prefix|] == prefix
  }

  /** The `get_dummies` column for area type `v`: the field name, `_`, then the value. */
  function AreaTypeColumn(v: string): (c: string)
    ensures HasPrefix(AreaTypePrefix, c) && c[|AreaTypePrefix|..] == v
  {
    assert (AreaTypePrefix + v)[..|AreaTypePrefix|] == AreaTypePrefix;
    AreaTypePrefix + v
  }

  /** The `get_dummies` column for location `v`. */
  function LocationColumn(v: string): (c: string)
    ensures HasPrefix(LocationPrefix, c) && c[|LocationPrefix|..] == v
  {
    assert (LocationPrefix + v)[..|LocationPrefix|] == LocationPrefix;
    LocationPrefix + v
  }

  /** The columns of the one-hot row built from `q`. */
  function RowColumns(q: Query): set<string> {
    NumericColumns + {AreaTypeColumn(q.areaType), LocationColumn(q.location)}
  }

  /** The two prefixes, and the numeric names, never name the same column. */
  lemma ColumnFamiliesDisjoint(c: string)
    ensures HasPrefix(AreaTypePrefix, c) ==> !HasPrefix(LocationPrefix, c) && c !in NumericColumns
    ensures HasPrefix(LocationPrefix, c) ==> c !in NumericColumns
  {
    if HasPrefix(AreaTypePrefix, c) {
      assert c[0] == c[..|AreaTypePrefix|][0] == 'a';
    }
    if HasPrefix(LocationPrefix, c) {
      assert c[0] == c[..|LocationPrefix|][0] == 'l';
    }
  }

  /** The frame after one-hot expansion, as a map from column name to value. */
  function OneHotRow(q: Query): (row: map<string, real>)
    ensures row.Keys == RowColumns(q)
    ensures row["size"] == q.size && row["total_sqft"] == q.totalSqft
    ensures row["bath"] == q.bath && row["balcony"] == q.balcony
    ensures row[AreaTypeColumn(q.areaType)] == Hot
    ensures row[LocationColumn(q.location)] == Hot
  {
    ColumnFamiliesDisjoint(AreaTypeColumn(q.areaType));
    ColumnFamiliesDisjoint(LocationColumn(q.location));
    map[
      "size" := q.size,
      "total_sqft" := q.totalSqft,
      "bath" := q.bath,
      "balcony" := q.balcony,
      AreaTypeColumn(q.areaType) := Hot,
      LocationColumn(q.location) := Hot]
  }

  /** The value reindexing gives to column `c` of `row`. */
  function Cell(row: map<string, real>, c: string): real {
    if c in row then row[c] else FillValue
  }

  /** Reindexes a row against an ordered schema: one entry per schema column, in order. */
  function Reindex(row: map<string, real>, columns: seq<string>): (r: seq<real>)
    ensures |r| == |columns|
    ensures forall i :: 0 <= i < |columns| ==> r[i] == Cell(row, columns[i])
  {
    if columns == [] then []
    else [Cell(row, columns[0])] + Reindex(row, columns[1..])
  }

  /** The feature vector the model is fed for `q`. */
  function Encode(columns: seq<string>, q: Query): (r: seq<real>)
    ensures |r| == |columns|
    ensures forall i :: 0 <= i < |columns| && columns[i] == "size" ==> r[i] == q.size
    ensures forall i :: 0 <= i < |columns| && columns[i] == "total_sqft" ==> r[i] == q.totalSqft
    ensures forall i :: 0 <= i < |columns| && columns[i] == "bath" ==> r[i] == q.bath
    ensures forall i :: 0 <= i < |columns| && columns[i] == "balcony" ==> r[i] == q.balcony
    ensures forall i :: 0 <= i < |columns| && HasPrefix(AreaTypePrefix, columns[i]) ==>
              r[i] == (if columns[i] == AreaTypeColumn(q.areaType) then Hot else FillValue)
    ensures forall i :: 0 <= i < |columns| && HasPrefix(LocationPrefix, columns[i]) ==>
              r[i] == (if columns[i] == LocationColumn(q.location) then Hot else FillValue)
    ensures forall i :: 0 <= i < |columns| && columns[i] !in RowColumns(q) ==> r[i] == FillValue
  {
    var r := Reindex(OneHotRow(q), columns);
    ColumnFamiliesDisjoint(AreaTypeColumn(q.areaType));
    ColumnFamiliesDisjoint(LocationColumn(q.location));
    assert forall i :: 0 <= i < |columns| && HasPrefix(AreaTypePrefix, columns[i]) ==>
             r[i] == (if columns[i] == AreaTypeColumn(q.areaType) then Hot else FillValue) by {
      forall i | 0 <= i < |columns| && HasPrefix(AreaTypePrefix, columns[i])
        ensures r[i] == (if columns[i] == AreaTypeColumn(q.areaType) then Hot else FillValue)
      {
        ColumnFamiliesDisjoint(columns[i]);
      }
    }
    assert forall i :: 0 <= i < |columns| && HasPrefix(LocationPrefix, columns[i]) ==>
             r[i] == (if columns[i] == LocationColumn(q.location) then Hot else FillValue) by {
      forall i | 0 <= i < |columns| && HasPrefix(LocationPrefix, columns[i])
        ensures r[i] == (if columns[i] == LocationColumn(q.location) then Hot else FillValue)
      {
        ColumnFamiliesDisjoint(columns[i]);
      }
    }
    r
  }

  /** The model's estimate; the rounding to two decimals is not modelled. */
  function Predict(model: Model, columns: seq<string>, q: Query): real {
    model(Encode(columns, q))
  }

  /**
   * A location the schema has no column for (a value unseen in training, or
   * the dropped base category) leaves every location indicator at 0.
   */
  lemma UnseenLocationIsAllZero(columns: seq<string>, q: Query)
    requires LocationColumn(q.location) !in columns
    ensures forall i :: 0 <= i < |columns| && HasPrefix(LocationPrefix, columns[i]) ==>
              Encode(columns, q)[i] == FillValue
  {
  }

  /** The same for the area type. */
  lemma UnseenAreaTypeIsAllZero(columns: seq<string>, q: Query)
    requires AreaTypeColumn(q.areaType) !in columns
    ensures forall i :: 0 <= i < |columns| && HasPrefix(AreaTypePrefix, columns[i]) ==>
              Encode(columns, q)[i] == FillValue
  {
  }

  /**
   * Two locations that both lack a schema column encode identically: the
   * estimate falls back to the base category's, and the schema never grows.
   */
  lemma UnseenLocationsEncodeAlike(columns: seq<string>, q: Query, other: string)
    requires LocationColumn(q.location) !in columns
    requires LocationColumn(other) !in columns
    ensures Encode(columns, q) == Encode(columns, q.(location := other))
  {
    var a, b := Encode(columns, q), Encode(columns, q.(location := other));
    forall i | 0 <= i < |columns|
      ensures a[i] == b[i]
    {
      var c := columns[i];
      ColumnFamiliesDisjoint(c);
      if !HasPrefix(LocationPrefix, c) {
        assert c != LocationColumn(q.location) && c != LocationColumn(other);
        assert c in RowColumns(q) <==> c in RowColumns(q.(location := other));
      }
    }
  }

  /** The same for the area type. */
  lemma UnseenAreaTypesEncodeAlike(columns: seq<string>, q: Query, other: string)
    requires AreaTypeColumn(q.areaType) !in columns
    requires AreaTypeColumn(other) !in columns
    ensures Encode(columns, q) == Encode(columns, q.(areaType := other))
  {
    var a, b := Encode(columns, q), Encode(columns, q.(areaType := other));
    forall i | 0 <= i < |columns|
      ensures a[i] == b[i]
    {
      var c := columns[i];
      ColumnFamiliesDisjoint(c);
      if !HasPrefix(AreaTypePrefix, c) {
        assert c != AreaTypeColumn(q.areaType) && c != AreaTypeColumn(other);
        assert c in RowColumns(q) <==> c in RowColumns(q.(areaType := other));
      }
    }
  }

  /** Unseen locations therefore get the same estimate from any model. */
  lemma UnseenLocationsPredictAlike(model: Model, columns: seq<string>, q: Query, other: string)
    requires LocationColumn(q.location) !in columns
    requires LocationColumn(other) !in columns
    ensures Predict(model, columns, q) == Predict(model, columns, q.(location := other))
  {
    UnseenLocationsEncodeAlike(columns, q, other);
  }

  /** At most one distinct location column is hot, and it is the submitted one. */
  lemma OneHotLocation(columns: seq<string>, q: Query, i: int, j: int)
    requires 0 <= i < |columns| && 0 <= j < |columns|
    requires HasPrefix(LocationPrefix, columns[i]) && HasPrefix(LocationPrefix, columns[j])
    requires Encode(columns, q)[i] == Hot && Encode(columns, q)[j] == Hot
    ensures columns[i] == columns[j] == LocationColumn(q.location)
  {
  }
}

=== FILE: outcomes.dfy ===
/** Optional values and results with an error, used by every module of the model. */
module Outcomes {

  /** A value that may be absent: a session key that is not set, a row that is not found. */
  datatype Option<+T> = None | Some(value: T)

  /** Either a computed value or the error the application reports instead. */
  datatype Result<+R, +E> = Success(value: R) | Failure(error: E)
}

=== FILE: passwords.dfy ===
/**
 * Salted password hashing, seen from outside.
 *
 * The key-derivation function itself is foreign code, so it is a parameter
 * `kdf` of every operation that hashes or checks a password; the random salt
 * the library draws is a parameter of hashing. The only fact the application
 * relies on is that a hash made from a password checks against that password.
 */
module Passwords {

  /** A key-derivation function from (salt, password) to a digest. */
  type Kdf = (string, string) -> string

  /** A stored password hash: the salt and the digest it produced. */
  datatype PasswordHash = PasswordHash(salt: string, digest: string)

  /** Does `password` match the stored hash `h`? */
  predicate Check(kdf: Kdf, h: PasswordHash, password: string) {
    kdf(h.salt, password) == h.digest
  }

  /** Hashes `password` under a freshly drawn `salt`. */
  function Hash(kdf: Kdf, salt: string, password: string): (h: PasswordHash)
    ensures h.salt == salt
    ensures Check(kdf, h, password)
  {
    PasswordHash(salt, kdf(salt, password))
  }

  /** A password whose digest under the same salt differs is rejected. */
  lemma CheckRejectsOtherDigests(kdf: Kdf, salt: string, password: string, guess: string)
    requires kdf(salt, guess) != kdf(salt, password)
    ensures !Check(kdf, Hash(kdf, salt, password), guess)
  {
  }
}

=== FILE: store.dfy ===
/**
 * The two relational tables, as values.
 *
 * `users(id SERIAL PRIMARY KEY, username UNIQUE, password_hash)` becomes a map
 * from username to account, which makes the username unique by construction,
 * plus the next value of its id sequence. `properties(id SERIAL PRIMARY KEY,
 * ..., user_id REFERENCES users(id))` becomes a sequence of rows in insertion
 * order plus the next value of its own id sequence.
 *
 * An INSERT draws its id from the sequence before the constraints are checked,
 * so an insert the database refuses (a taken username, an owner id with no
 * account) leaves the table as it was but still uses up one id. A SERIAL
 * column is a 32-bit `integer`: once its sequence has handed out the largest
 * such value, drawing fails and every later INSERT is refused, with the
 * sequence left where it was.
 */
module Store {
  import opened Passwords

  datatype Account = Account(id: nat, hash: PasswordHash)

  datatype Property = Property(
    id: nat,
    city: string,
    pincode: string,
    survey: string,
    price: real,
    area: real,
    owner: nat)

  datatype Db = Db(
    users: map<string, Account>,
    nextId: nat,
    properties: seq<Property>,
    nextPropertyId: nat)

  /** The outcome of one INSERT: the store afterwards, and whether the row was committed. */
  datatype Write = Write(db: Db, committed: bool)

  /** The first value a SERIAL column hands out. */
  const FirstId: nat := 1

  /** The largest value a SERIAL (32-bit `integer`) sequence hands out. */
  const MaxSerialId: nat := 0x7FFF_FFFF

  /** Both tables empty, as the DDL leaves them. */
  const Empty: Db := Db(map[], FirstId, [], FirstId)

  /** The primary key of `users`: no two accounts share an id. */
  predicate IdsUnique(users: map<string, Account>) {
    forall u, v :: u in users && v in users && u != v ==> users[u].id != users[v].id
  }

  function Ids(users: map<string, Account>): set<nat> {
    set u | u in users :: users[u].id
  }

  /** What the database guarantees of its own contents. */
  predicate Valid(db: Db) {
    && FirstId <= db.nextId
    && (forall u :: u in db.users ==> FirstId <= db.users[u].id < db.nextId)
    && IdsUnique(db.users)
    && FirstId <= db.nextPropertyId
    && (forall i :: 0 <= i < |db.properties| ==>
          && FirstId <= db.properties[i].id < db.nextPropertyId
          && db.properties[i].owner in Ids(db.users))
    && (forall i, j :: 0 <= i < j < |db.properties| ==> db.properties[i].id < db.properties[j].id)
  }

  /** The inverse of the id column, which the primary key makes a function. */
  function ById(users: map<string, Account>): (byId: map<nat, string>)
    requires IdsUnique(users)
    ensures byId.Keys == Ids(users)
    ensures forall u :: u in users ==> byId[users[u].id] == u
    ensures forall id :: id in byId ==> byId[id] in users && users[byId[id]].id == id
  {
    map u | u in users :: users[u].id := u
  }

  /**
   * `INSERT INTO users`: the row takes the next id of the sequence, and the
   * UNIQUE constraint on `username` refuses a name that is already taken;
   * nothing is inserted once the id sequence is exhausted.
   */
  function InsertUser(db: Db, username: string, hash: PasswordHash): (w: Write)
    ensures db.nextId <= MaxSerialId ==> w.db.nextId == db.nextId + 1
    ensures db.nextId > MaxSerialId ==> w.db == db
    ensures w.db.properties == db.properties && w.db.nextPropertyId == db.nextPropertyId
    ensures w.committed <==> username !in db.users && db.nextId <= MaxSerialId
    ensures !w.committed ==> w.db.users == db.users
    ensures w.committed ==>
              && w.db.users.Keys == db.users.Keys + {username}
              && w.db.users[username] == Account(db.nextId, hash)
              && (forall u :: u in db.users ==> w.db.users[u] == db.users[u])
    ensures Valid(db) ==> Valid(w.db)
  {
    if db.nextId > MaxSerialId then
      Write(db, false)
    else if username in db.users then
      Write(db.(nextId := db.nextId + 1), false)
    else
      var r := db.(users := db.users[username := Account(db.nextId, hash)], nextId := db.nextId + 1);
      assert Ids(db.users) <= Ids(r.users) by {
        forall id | id in Ids(db.users) ensures id in Ids(r.users) {
          var u :| u in db.users && db.users[u].id == id;
          assert r.users[u].id == id;
        }
      }
      Write(r, true)
  }

  /**
   * `INSERT INTO properties`: the row takes the next property id, and the
   * foreign key refuses an owner id that no account has; nothing is inserted
   * once the property id sequence is exhausted.
   */
  function InsertProperty(
    db: Db, city: string, pincode: string, survey: string, price: real, area: real, owner: nat): (w: Write)
    ensures w.db.users == db.users && w.db.nextId == db.nextId
    ensures db.nextPropertyId <= MaxSerialId ==> w.db.nextPropertyId == db.nextPropertyId + 1
    ensures db.nextPropertyId > MaxSerialId ==> w.db == db
    ensures w.committed <==> owner in Ids(db.users) && db.nextPropertyId <= MaxSerialId
    ensures !w.committed ==> w.db.properties == db.properties
    ensures w.committed ==>
              && |w.db.properties| == |db.properties| + 1
              && w.db.properties[..|db.properties|] == db.properties
              && w.db.properties[|db.properties|]
                 == Property(db.nextPropertyId, city, pincode, survey, price, area, owner)
    ensures Valid(db) ==> Valid(w.db)
  {
    if db.nextPropertyId > MaxSerialId then
      Write(db, false)
    else if owner in Ids(db.users) then
      var p := Property(db.nextPropertyId, city, pincode, survey, price, area, owner);
      Write(db.(properties := db.properties + [p], nextPropertyId := db.nextPropertyId + 1), true)
    else
      Write(db.(nextPropertyId := db.nextPropertyId + 1), false)
  }
}

=== FILE: submission.dfy ===
/**
 * The property form and the admin listing.
 *
 * `POST /form` stores one property row owned by the logged-in user; `/admin`
 * joins every property with its owner's username for the admin alone.
 */
module Submission {
  import opened Outcomes
  import opened Store
  import opened Auth

  /** One line of the admin page: the property's id and fields, and its owner's name. */
  datatype ListingRow = ListingRow(
    propertyId: nat,
    city: string,
    pincode: string,
    survey: string,
    price: real,
    area: real,
    username: string)

  /**
   * The `POST /form` handler; price and area arrive already parsed. The row is
   * owned by the session's `user_id`, which the foreign key requires to be an
   * account's id: when it is not, or the property ids have run out, the insert
   * is refused and reported.
   */
  function SubmitForm(st: State, city: string, pincode: string, survey: string, price: real, area: real): (r: Reply)
    ensures !r.delayed
    ensures r.state.session == st.session
    ensures r.state.db.users == st.db.users && r.state.db.nextId == st.db.nextId
    ensures r.status == Failed(AuthError) <==> st.session.userId.None?
    ensures r.status == Failed(AuthError) ==> r.state == st
    ensures r.status == Done <==>
              && st.session.userId.Some?
              && st.session.userId.value in Ids(st.db.users)
              && st.db.nextPropertyId <= MaxSerialId
    ensures r.status == Failed(StoreError) <==>
              && st.session.userId.Some?
              && (st.session.userId.value !in Ids(st.db.users) || st.db.nextPropertyId > MaxSerialId)
    ensures r.status == Failed(StoreError) ==> r.state.db.properties == st.db.properties
    ensures st.session.userId.Some? && st.db.nextPropertyId <= MaxSerialId ==>
              r.state.db.nextPropertyId == st.db.nextPropertyId + 1
    ensures st.db.nextPropertyId > MaxSerialId ==> r.state == st
    ensures r.status == Done ==>
              && |r.state.db.properties| == |st.db.properties| + 1
              && r.state.db.properties[..|st.db.properties|] == st.db.properties
              && r.state.db.properties[|st.db.properties|]
                 == Property(st.db.nextPropertyId, city, pincode, survey, price, area, st.session.userId.value)
    ensures Valid(st.db) ==> Valid(r.state.db)
  {
    match RequireLogin(st.session)
    case Failed(e) => Reply(st, Failed(e), false)
    case Done =>
      var w := InsertProperty(st.db, city, pincode, survey, price, area, st.session.userId.value);
      Reply(st.(db := w.db), if w.committed then Done else Failed(StoreError), false)
  }

  /**
   * The inner join of the properties with the users table: a property whose
   * owner has no account is left out.
   */
  function Join(props: seq<Property>, byId: map<nat, string>): (rows: seq<ListingRow>)
    ensures |rows| <= |props|
    ensures forall k :: 0 <= k < |rows| ==> rows[k].username in byId.Values
    ensures (forall i :: 0 <= i < |props| ==> props[i].owner in byId) ==>
              && |rows| == |props|
              && forall i :: 0 <= i < |props| ==>
                   rows[i] == ListingRow(props[i].id, props[i].city, props[i].pincode, props[i].survey,
                                         props[i].price, props[i].area, byId[props[i].owner])
  {
    if props == [] then []
    else
      var p := props[0];
      var rest := Join(props[1..], byId);
      if p.owner in byId then
        [ListingRow(p.id, p.city, p.pincode, p.survey, p.price, p.area, byId[p.owner])] + rest
      else
        rest
  }

  /** The `/admin` handler: the admin's listing, or access denied. */
  function AdminPage(st: State): (r: Result<seq<ListingRow>, Error>)
    requires IdsUnique(st.db.users)
    ensures r.Failure? <==> RequireAdmin(st.session).Failed?
    ensures r.Failure? ==> r.error == AccessDenied
    ensures r.Success? ==> forall k :: 0 <= k < |r.value| ==> r.value[k].username in st.db.users
    ensures r.Success? && Valid(st.db) ==>
              && |r.value| == |st.db.properties|
              && forall i :: 0 <= i < |st.db.properties| ==>
                   var p, row := st.db.properties[i], r.value[i];
                   && row == ListingRow(p.id, p.city, p.pincode, p.survey, p.price, p.area, row.username)
                   && st.db.users[row.username].id == p.owner
  {
    match RequireAdmin(st.session)
    case Failed(e) => Failure(e)
    case Done => Success(Join(st.db.properties, ById(st.db.users)))
  }
}
